=== FILE: README.md ===
# Avaturn avatar download and rig transplant — a Dafny model

This project models the two decision-making components of the Avaturn Unity
SDK's avatar runtime:

* **DownloadAvatar** — the component that loads a glTF avatar from a URL.
  `Start()` reads two persisted preferences (`AvaturnStartUrl` and
  `HasAvaturnDownloadOnStart`) and may call `Download(url)`. `Download` does
  nothing for a null or empty URL. Otherwise it clears the container's
  scenes and asks the loader for the URL. On success it raises
  `OnSuccess(transform)`, stores the URL and sets the flag to 1. On failure
  it sets the flag to 0 and keeps the stored URL.
* **PrepareAvatar** — the component on the animated rig. Its `Start`
  subscribes `PrepareModel` to `OnSuccess` and its `OnDestroy` unsubscribes
  it. `PrepareModel` does the following, in order:
  1. With root motion on, it resets the rig's local pose.
  2. It deactivates the downloaded model.
  3. It destroys the rig's children from `_clearRootFromIndex` on.
  4. It waits one frame.
  5. It moves every child of the model's first child onto the rig, always
     taking index 0.
  6. It builds the humanoid avatar.
  7. It waits once more and destroys the emptied root.

Modelling choices:

* The preferences are a record of two optional fields. `None` means the key
  is absent, so the `GetInt` / `GetString` defaults apply.
* A C# string is an `Option<string>`, with `None` for null.
* The loader's verdict, the animator's `applyRootMotion` and whether
  `HumanoidAvatarBuilder.Build` returns normally are boolean inputs.
* The scene graph is reduced to child-id sequences.
* Unity's `Destroy` is deferred. It only marks a node, so the clearing
  loop's `childCount` never shrinks. The marked rig children disappear at
  the first `Task.Yield`. An immediate-removal reading would skip every
  other child; this model does not use it.
* Each component appends its observable calls to an ordered log. For
  DownloadAvatar these are clear, load, raise and save. For PrepareAvatar
  they are pose reset, deactivate, destroy, yield, reparent and build.
  Ordering properties are stated over these logs.
* `OnSuccess` is a multicast delegate's invocation list. `+=` appends.
  `-=` removes the last occurrence, as `Delegate.Remove` does.
* Exceptions that `PrepareModel`'s `catch` swallows become exits of an
  `Exit` datatype:
  * `ClearIndexFault`: a negative clear index makes `GetChild` throw.
  * `NoRootFault`: `GetChild(0)` on a model without children throws.
  * `BuildFault`: the avatar builder throws.
  * `RootMissing`: the first child is a destroyed object. This is the
    `!root` warning path.

Behaviour worth noting:

* `Download` is `async void` and returns nothing, so no boolean result is modelled.
* A transplant that finds no root leaves the rig with its children below
  the clear index.
* A missing first child is an exception that is caught and logged as an
  error. The "can't find root" warning is reached only when the first child
  exists but is a destroyed object.
* A throwing avatar builder is swallowed by the same `catch`. The rig stays
  transplanted, the avatar is unchanged and the emptied root is not
  destroyed.
* The success event is raised before the preferences are written.
* The serialized download-on-start flag is never read: `Start` overwrites
  it with the stored int, default 0, before testing it, so on a fresh
  store the inspector setting loads nothing. See
  "## Findings". `Bootstrap` follows the code; `BootstrapIntended` chains
  the corrected read. Once a flag is stored, the two agree.

Modules: `Wrappers` (Option), `Seqs` (sequence helpers), `Events`
(`OnSuccess`), `DownloadAvatar`, `PrepareAvatar`, `Pipeline` (the two wired
together).

## Model

| member | source | states |
|---|---|---|
| DownloadAvatar.Start | Runtime/Scripts/Avatar/DownloadAvatar.cs:24-36 | The flag is true exactly when the stored int is 1, and an absent key reads as false. The URL is the stored one, or the serialized start URL when the key is absent. `Download` is requested exactly when the flag holds and the URL is neither null nor empty, and then with that URL. |
| DownloadAvatar.StartIntended | Runtime/Scripts/Avatar/DownloadAvatar.cs:17-35 | Corrected start-up read. With the inspector flag ticked and a start URL set, a fresh store requests that URL. When no flag is stored, a URL is requested exactly when the inspector flag is ticked and the URL read is non-empty. Whenever a flag is stored, the result equals `Start`'s. Any request is a non-empty URL that the component keeps as its start URL. |
| DownloadAvatar.StartIgnoresInspectorFlag | Runtime/Scripts/Avatar/DownloadAvatar.cs:17-27 | As written, with the inspector flag ticked, a non-empty start URL and an empty store, `Start` requests nothing. The corrected read requests that URL. |
| DownloadAvatar.Bootstrap | Runtime/Scripts/Avatar/DownloadAvatar.cs:32-35 | After `Start`, the loader is asked for exactly the URL `Start` requests. When a URL is requested and loads, the event is raised once with the component's transform and the store holds that URL with flag 1. When it fails, no event is raised and the flag becomes 0 with the stored URL kept. When nothing is requested the session is untouched. |
| DownloadAvatar.BootstrapIntended | Runtime/Scripts/Avatar/DownloadAvatar.cs:17-35 | The same chain over the corrected start-up read, with the same load, event and store outcomes for what `StartIntended` requests. Whenever a flag is stored it equals `Bootstrap`. |
| DownloadAvatar.Download | Runtime/Scripts/Avatar/DownloadAvatar.cs:38-70 | A null or empty URL changes nothing. Otherwise scenes are cleared first, the load of `url` comes next and the store is flushed last. The loader is asked exactly once. The success event is raised exactly once, with the component's transform, and only on success. Success stores the URL with flag 1. Failure sets flag 0 and keeps the stored URL. |
| DownloadAvatar.DownloadIdempotent | Runtime/Scripts/Avatar/DownloadAvatar.cs:57-59 | Two successful downloads of the same URL persist the same preferences as one. |
| DownloadAvatar.RestartAfterDownload | Runtime/Scripts/Avatar/DownloadAvatar.cs:27-35 | Round trip through the store: after a successful download of `u`, the next start requests `u`. After a failed one it requests nothing. |
| DownloadAvatar.DownloadKeepsTrusted | Runtime/Scripts/Avatar/DownloadAvatar.cs:53-68 | Every download, successful or not, keeps the invariant "flag 1 implies a non-empty stored URL". |
| DownloadAvatar.TrustedStartRequests | Runtime/Scripts/Avatar/DownloadAvatar.cs:27-35 | Under that invariant, a set flag always makes the bootstrap request the stored URL. |
| DownloadAvatar.RunPersistsLastSuccess | Runtime/Scripts/Avatar/DownloadAvatar.cs:53-68 | After any history of downloads, the stored URL is that of the most recent successful non-empty attempt, and the flag is the verdict of the most recent non-empty attempt. Both are checked against reference definitions that read the history backwards. |
| DownloadAvatar.RunFlagMeansLoaded | Runtime/Scripts/Avatar/DownloadAvatar.cs:53-68 | After a history with at least one non-empty attempt, a stored flag of 1 means the stored URL is one that loaded successfully during that history. |
| DownloadAvatar.RunEstablishesTrusted | Runtime/Scripts/Avatar/DownloadAvatar.cs:53-68 | Any history with at least one non-empty attempt leaves the store trusted, whatever it held before. |
| Events.Subscribe | Runtime/Scripts/Avatar/PrepareAvatar.cs:24 | `+=` adds one occurrence of the handler and leaves every other handler's count unchanged. |
| Events.LastIndexOf | Runtime/Scripts/Avatar/PrepareAvatar.cs:37 | Finds the occurrence that `-=` removes: the last one, or -1 exactly when the handler is absent. |
| Events.Unsubscribe | Runtime/Scripts/Avatar/PrepareAvatar.cs:37 | `-=` of an absent handler leaves the list as it is. Otherwise it removes the LAST occurrence of the handler: the list is the part before it followed by the part after it, every other entry keeps its order, and no occurrence of the handler follows the removed one. It is computed by `Events.RemoveLast`. |
| Events.UnsubscribeCounts | Runtime/Scripts/Avatar/PrepareAvatar.cs:37 | `-=`, computed by `Events.RemoveLast` through `Events.LastIndexOf`, lowers the handler's count by one when it is present and changes no other count. |
| Events.SubscribeUnsubscribe | Runtime/Scripts/Avatar/PrepareAvatar.cs:24-37 | `+=` followed by `-=` of the same handler restores the invocation list exactly. |
| Events.InvokeCounts | Runtime/Scripts/Avatar/DownloadAvatar.cs:55 | `Events.Invoke`, the event invocation, calls each handler once per subscription, always with the event's argument. |
| PrepareAvatar.LifecycleSubscription | Runtime/Scripts/Avatar/PrepareAvatar.cs:20-43 | About `PrepareAvatar.Start` (`+=`) and `PrepareAvatar.OnDestroy` (`-=`). After `Start` the handler receives one more call per event. After `OnDestroy` the list is the one found, so a handler that was not subscribed before is not subscribed after teardown. |
| PrepareAvatar.ClearFrom | Runtime/Scripts/Avatar/PrepareAvatar.cs:58-61 | Because destruction is deferred, the clearing loop marks every rig child from the clear index to the end, in order, and skips none. |
| PrepareAvatar.MoveChildren | Runtime/Scripts/Avatar/PrepareAvatar.cs:75-80 | Taking the root's child at index 0, `count` times, appends the first `count` children to the rig in their original order and leaves the rest on the root. |
| PrepareAvatar.ReparentAll | Runtime/Scripts/Avatar/PrepareAvatar.cs:75-80 | The loop as written: the child count is read once and the child at index 0 is moved that many times. The rig ends with the root's children appended in original order, the root ends empty, and the result equals `MoveChildren`'s. |
| PrepareAvatar.PrepareModel | Runtime/Scripts/Avatar/PrepareAvatar.cs:45-91 | On every path the model ends deactivated. With root motion the pose is reset; otherwise it is unchanged. Each exit holds exactly under its condition: a negative clear index, no first child, a destroyed first child, or the builder's verdict. The avatar is rebuilt over the final rig children exactly on completion, and is untouched otherwise. |
| PrepareAvatar.PrepareModelTransplants | Runtime/Scripts/Avatar/PrepareAvatar.cs:55-85 | The rig keeps exactly its children below the clear index, in order. When a root was found, the rig then holds the root's original children in original order and the root is left empty. The nodes marked for destruction are the cleared children, plus the root on completion. Without a root the rig stays in its post-clear state. |
| PrepareAvatar.ClearPastEndKeepsRig | Runtime/Scripts/Avatar/PrepareAvatar.cs:58-63 | With a clear index at or past the child count, no rig child is marked for destruction; only the root is marked, and only on completion. A run that finds no root leaves the rig's children as they were. |
| PrepareAvatar.TransplantedNodesSurvive | Runtime/Scripts/Avatar/PrepareAvatar.cs:75-85 | On completion, every transplanted node sits under the rig and is never marked for destruction. The root is marked and holds no children. |
| PrepareAvatar.PrepareModelLog | Runtime/Scripts/Avatar/PrepareAvatar.cs:45-91 | The engine calls of one run are exactly the reference listing for its exit. |
| PrepareAvatar.DeactivatesFirst | Runtime/Scripts/Avatar/PrepareAvatar.cs:49-61 | The model is deactivated, right after the optional pose reset, before any destruction or reparenting. |
| PrepareAvatar.AbortMovesNothing | Runtime/Scripts/Avatar/PrepareAvatar.cs:58-72 | A run that faults on the clear index or finds no usable root reparents nothing and never builds the avatar. |
| PrepareAvatar.CompletedOrder | Runtime/Scripts/Avatar/PrepareAvatar.cs:75-85 | A completed run reparents the root's children in order and destroys the cleared children, then the root. It builds the avatar exactly once, after every move and before the root's destruction, which is the last call. |
| Pipeline.StartupTransplantsOnce | Runtime/Scripts/Avatar/DownloadAvatar.cs:24-69 | Start-up with the flag set and URL `x` loads `x` exactly once. On success, one event carries the component's transform, the subscribed rig handler is called once, and that run completes with the avatar built over the preserved rig children followed by the model's content. On failure no event is raised and the next start does not load again. |

## Left out

- `Request(Uri)` and the awaitable download it wraps: a network primitive with no decision logic.
- glTF loading and decoding (`GltfAsset.Load`, the download provider, the internals of `ClearScenes`): the loader's verdict is a boolean input, and clearing is a logged effect.
- `HumanoidAvatarBuilder.Build` internals: it is an opaque call that either returns, giving a mapping over the rig's children, or throws.
- `PlayerPrefs.Save` disk I/O: it is a logged effect, and the store is a record.
- `Debug.Log` / `LogError` / `LogWarning` output.
- Transform maths: positions and rotations are abstracted to "reset" or "unchanged", and `_worldPositionStaysForNewAvatar` only affects world-space maths, so it is not a parameter.
- `async void` scheduling: each `Task.Yield` is only the point where pending destructions take effect. The final `Destroy(root)` stays pending, since it takes effect after the handler returns.
- Overlapping or re-entrant `Download` calls and overlapping `PrepareModel` runs: concurrency is out of scope.
- `_animator = GetComponent<Animator>()` in `Start`: the component requires an Animator, and only its `applyRootMotion` setting is used, as an input.
- Null `events` or `_events` references: serialized event objects are assumed present.
- A downloaded model that is itself one of the rig's children, or already marked for destruction: `WellFormed` requires the model to lie outside the rig's hierarchy. The download component raises the event with its own transform, under which the freshly loaded glTF instance sits.

## Findings

| source | as written | input that shows it | evidently intended | confidence | as-written member | corrected member |
|---|---|---|---|---|---|---|
| Runtime/Scripts/Avatar/DownloadAvatar.cs:17-27 | the inspector flag is never read: `Start` overwrites it with the stored int (default 0) before testing it | inspector flag ticked, start URL `"X"`, empty preference store: `Start` requests nothing | the tooltip says the flag loads the start URL on start; the serialized flag should be the default of the stored read, so `"X"` is requested | medium, not executed | DownloadAvatar.StartIgnoresInspectorFlag | DownloadAvatar.StartIntended |

=== FILE: download_avatar.dfy ===
/** The download component: the persisted start URL and download-on-start
    flag, the `Start` bootstrap that reads them, and the `Download(url)`
    transition that clears the glTF container, loads, raises the success
    event and writes the preferences back. The loader's verdict is an input;
    the persisted store is a record; the component's observable side effects
    are appended, in order, to an effect log. */
module DownloadAvatar {
  import opened Wrappers
  import opened Seqs
  import Events

  /** A C# string reference: `None` is null. */
  type Url = Option<string>

  /** `string.IsNullOrEmpty`. */
  predicate IsNullOrEmpty(u: Url) {
    u == None || u.value == ""
  }

  /** The two preference keys; `None` means the key is absent from the store. */
  datatype Prefs = Prefs(startUrl: Option<string>, downloadOnStart: Option<int>)

  /** Observable effects of the component, in the order they happen. */
  datatype Effect =
    | ClearScenes          // the glTF container drops its instantiated scenes
    | Load(url: string)    // the loader is asked for `url`
    | Raise(payload: Events.NodeId)  // `OnSuccess` is invoked with this transform
    | Save                 // the preference store is flushed

  datatype Session = Session(prefs: Prefs, effects: seq<Effect>)

  /** The component's serialized fields and its own transform. */
  datatype Component = Component(self: Events.NodeId, downloadOnStart: bool, startUrl: Url)

  /** What `Start` leaves behind: the updated fields and the URL it passes to
      `Download`, if it calls it at all. */
  datatype Boot = Boot(component: Component, request: Option<string>)

  /** `PlayerPrefs.GetInt(key, default)`. */
  function GetInt(stored: Option<int>, default: int): int {
    stored.GetOr(default)
  }

  /** `PlayerPrefs.GetString(key, default)`. */
  function GetString(stored: Option<string>, default: Url): Url {
    if stored.Some? then stored else default
  }

  /** Payloads of the success events in an effect log, in order. */
  function Raises(effects: seq<Effect>): seq<Events.NodeId> {
    if |effects| == 0 then []
    else (if effects[0].Raise? then [effects[0].payload] else []) + Raises(effects[1..])
  }

  /** URLs handed to the loader in an effect log, in order. */
  function Loads(effects: seq<Effect>): seq<string> {
    if |effects| == 0 then []
    else (if effects[0].Load? then [effects[0].url] else []) + Loads(effects[1..])
  }

  lemma LogAppend(a: seq<Effect>, b: seq<Effect>)
    ensures Raises(a + b) == Raises(a) + Raises(b)
    ensures Loads(a + b) == Loads(a) + Loads(b)
  {
    RaisesAppend(a, b);
    LoadsAppend(a, b);
  }

  lemma {:induction false} RaisesAppend(a: seq<Effect>, b: seq<Effect>)
    ensures Raises(a + b) == Raises(a) + Raises(b)
  {
    if |a| == 0 {
      assert a + b == b;
    } else {
      assert (a + b)[1..] == a[1..] + b;
      RaisesAppend(a[1..], b);
      Assoc(if a[0].Raise? then [a[0].payload] else [], Raises(a[1..]), Raises(b));
    }
  }

  lemma {:induction false} LoadsAppend(a: seq<Effect>, b: seq<Effect>)
    ensures Loads(a + b) == Loads(a) + Loads(b)
  {
    if |a| == 0 {
      assert a + b == b;
    } else {
      assert (a + b)[1..] == a[1..] + b;
      LoadsAppend(a[1..], b);
      Assoc(if a[0].Load? then [a[0].url] else [], Loads(a[1..]), Loads(b));
    }
  }

  /** `Start()`: the flag is read as "stored value is 1" with default 0, the
      URL with the serialized start URL as default; `Download` is called
      exactly when the flag holds and the URL is neither null nor empty. */
  function Start(c: Component, p: Prefs): (r: Boot)
    ensures r.component.self == c.self
    ensures r.component.downloadOnStart <==> p.downloadOnStart == Some(1)
    ensures p.startUrl.Some? ==> r.component.startUrl == p.startUrl
    ensures p.startUrl.None? ==> r.component.startUrl == c.startUrl
    ensures r.request.Some? <==> p.downloadOnStart == Some(1) && !IsNullOrEmpty(r.component.startUrl)
    ensures r.request.Some? ==> r.request.value != "" && r.component.startUrl == Some(r.request.value)
  {
    var flag := GetInt(p.downloadOnStart, 0) == 1;
    var url := GetString(p.startUrl, c.startUrl);
    var fields := c.(downloadOnStart := flag, startUrl := url);
    if flag && !IsNullOrEmpty(url) then Boot(fields, Some(url.value)) else Boot(fields, None)
  }

  /** `Start()` as the inspector tooltip describes it: the serialized
      download-on-start flag is the default when no flag is stored, so the
      inspector setting takes effect on a fresh store. A stored flag still
      decides, exactly as in `Start`. */
  function StartIntended(c: Component, p: Prefs): (r: Boot)
    ensures p.downloadOnStart.Some? ==> r == Start(c, p)
    ensures p == Prefs(None, None) && c.downloadOnStart && !IsNullOrEmpty(c.startUrl) ==>
              r.request == Some(c.startUrl.value)
    ensures p.downloadOnStart.None? ==>
              (r.request.Some? <==> c.downloadOnStart && !IsNullOrEmpty(r.component.startUrl))
    ensures r.request.Some? ==> r.request.value != "" && r.component.startUrl == Some(r.request.value)
  {
    var flag := GetInt(p.downloadOnStart, if c.downloadOnStart then 1 else 0) == 1;
    var url := GetString(p.startUrl, c.startUrl);
    var fields := c.(downloadOnStart := flag, startUrl := url);
    if flag && !IsNullOrEmpty(url) then Boot(fields, Some(url.value)) else Boot(fields, None)
  }

  /** The code as written ignores the inspector flag on a fresh store: with
      the flag ticked and a start URL set, `Start` requests nothing, while
      the intended reading requests that URL. */
  lemma StartIgnoresInspectorFlag(self: Events.NodeId, x: string)
    requires x != ""
    ensures Start(Component(self, true, Some(x)), Prefs(None, None)).request == None
    ensures StartIntended(Component(self, true, Some(x)), Prefs(None, None)).request == Some(x)
  {
  }

  /** `Download(url)` with the loader answering `loadOk`. */
  function Download(s: Session, self: Events.NodeId, url: Url, loadOk: bool): (r: Session)
    // null or empty: nothing at all happens
    ensures IsNullOrEmpty(url) ==> r == s
    // the earlier log is kept; scenes are cleared, then the load is attempted, and the store is flushed last
    ensures |r.effects| >= |s.effects| && r.effects[..|s.effects|] == s.effects
    ensures !IsNullOrEmpty(url) ==>
              |r.effects| >= |s.effects| + 3
              && r.effects[|s.effects|] == ClearScenes
              && r.effects[|s.effects| + 1] == Load(url.value)
              && r.effects[|r.effects| - 1] == Save
    // the loader is asked once, for `url`
    ensures Loads(r.effects) == Loads(s.effects) + (if IsNullOrEmpty(url) then [] else [url.value])
    // the success event is raised once, with the component's transform, and only on success
    ensures Raises(r.effects) == Raises(s.effects) + (if !IsNullOrEmpty(url) && loadOk then [self] else [])
    // success stores the URL and sets the flag to 1
    ensures !IsNullOrEmpty(url) && loadOk ==> r.prefs.startUrl == url && r.prefs.downloadOnStart == Some(1)
    // failure sets the flag to 0 and keeps the stored URL
    ensures !IsNullOrEmpty(url) && !loadOk ==>
              r.prefs.startUrl == s.prefs.startUrl && r.prefs.downloadOnStart == Some(0)
  {
    if IsNullOrEmpty(url) then s
    else
      var tail := Attempted(self, url.value, loadOk);
      LogAppend(s.effects, tail);
      var prefs := if loadOk then Prefs(url, Some(1)) else s.prefs.(downloadOnStart := Some(0));
      Session(prefs, s.effects + tail)
  }

  /** The effects one non-empty download appends: clear, load, the event on
      success only, then the flush. */
  function Attempted(self: Events.NodeId, u: string, loadOk: bool): (t: seq<Effect>)
    ensures |t| >= 3 && t[0] == ClearScenes && t[1] == Load(u) && t[|t| - 1] == Save
    ensures Loads(t) == [u]
    ensures Raises(t) == if loadOk then [self] else []
  {
    var last := if loadOk then [Raise(self), Save] else [Save];
    assert Raises([Save]) == [] && Loads([Save]) == [] by { assert [Save][1..] == []; }
    assert Raises(last) == (if loadOk then [self] else []) && Loads(last) == [] by {
      if loadOk { assert last[1..] == [Save]; }
    }
    var t := [ClearScenes, Load(u)] + last;
    assert t[1..][1..] == last;
    assert Raises(t[1..]) == Raises(last) && Loads(t[1..]) == [u];
    t
  }

  /** `Start()` followed by the download it decides on, if any: the loader
      is asked for exactly the URL `Start` requests, and when it requests
      nothing the session is untouched. */
  function Bootstrap(c: Component, s: Session, loadOk: bool): (r: (Component, Session))
    ensures var b := Start(c, s.prefs);
            && r.0 == b.component
            && Loads(r.1.effects) == Loads(s.effects) + (if b.request.Some? then [b.request.value] else [])
            && Raises(r.1.effects) == Raises(s.effects) + (if b.request.Some? && loadOk then [c.self] else [])
            && (b.request.Some? && loadOk ==> r.1.prefs == Prefs(Some(b.request.value), Some(1)))
            && (b.request.Some? && !loadOk ==> r.1.prefs == s.prefs.(downloadOnStart := Some(0)))
            && (b.request.None? ==> r.1 == s)
  {
    var b := Start(c, s.prefs);
    if b.request.Some? then (b.component, Download(s, c.self, Some(b.request.value), loadOk))
    else (b.component, s)
  }

  /** The same chain over the corrected start-up read: it loads exactly what
      that read requests, and once a flag is stored it is the code's
      bootstrap exactly. */
  function BootstrapIntended(c: Component, s: Session, loadOk: bool): (r: (Component, Session))
    ensures var b := StartIntended(c, s.prefs);
            && r.0 == b.component
            && Loads(r.1.effects) == Loads(s.effects) + (if b.request.Some? then [b.request.value] else [])
            && Raises(r.1.effects) == Raises(s.effects) + (if b.request.Some? && loadOk then [c.self] else [])
            && (b.request.Some? && loadOk ==> r.1.prefs == Prefs(Some(b.request.value), Some(1)))
            && (b.request.Some? && !loadOk ==> r.1.prefs == s.prefs.(downloadOnStart := Some(0)))
            && (b.request.None? ==> r.1 == s)
    ensures s.prefs.downloadOnStart.Some? ==> r == Bootstrap(c, s, loadOk)
  {
    var b := StartIntended(c, s.prefs);
    if b.request.Some? then (b.component, Download(s, c.self, Some(b.request.value), loadOk))
    else (b.component, s)
  }

  /** Two consecutive successful downloads of the same URL persist the same
      preferences as one. */
  lemma DownloadIdempotent(s: Session, self: Events.NodeId, url: Url)
    ensures Download(Download(s, self, url, true), self, url, true).prefs == Download(s, self, url, true).prefs
  {
  }

  /** What was persisted is what the next start reads back: after a
      successful download of a non-empty URL the bootstrap asks for that URL
      again; after a failed one it asks for nothing. */
  lemma RestartAfterDownload(c: Component, s: Session, self: Events.NodeId, u: string, loadOk: bool)
    requires u != ""
    ensures Start(c, Download(s, self, Some(u), loadOk).prefs).request == (if loadOk then Some(u) else None)
  {
  }

  /** Best-effort guarantee on the store: the flag is 1 only when a usable URL
      is stored next to it. */
  predicate Trusted(p: Prefs) {
    p.downloadOnStart == Some(1) ==> !IsNullOrEmpty(p.startUrl)
  }

  /** Every download keeps the store trusted, whatever the loader answers. */
  lemma DownloadKeepsTrusted(s: Session, self: Events.NodeId, url: Url, loadOk: bool)
    requires Trusted(s.prefs)
    ensures Trusted(Download(s, self, url, loadOk).prefs)
  {
  }

  /** A trusted store with the flag set always makes the bootstrap request
      the stored URL. */
  lemma TrustedStartRequests(c: Component, p: Prefs)
    requires Trusted(p) && p.downloadOnStart == Some(1)
    ensures Start(c, p).request == Some(p.startUrl.value)
  {
  }

  /** One call of `Download` in a history of calls. */
  datatype Attempt = Attempt(url: Url, loadOk: bool)

  /** Calls to `Download`, one after another, from session `s`. */
  function Run(s: Session, self: Events.NodeId, attempts: seq<Attempt>): Session
    decreases |attempts|
  {
    if |attempts| == 0 then s
    else Run(Download(s, self, attempts[0].url, attempts[0].loadOk), self, attempts[1..])
  }

  /** Reference definition, read from the most recent attempt backwards: the
      stored URL is the one of the last successful non-empty attempt, or what
      was stored before when there is none. */
  function LastSuccess(attempts: seq<Attempt>, before: Option<string>): Option<string> {
    if |attempts| == 0 then before
    else
      var a := attempts[|attempts| - 1];
      if !IsNullOrEmpty(a.url) && a.loadOk then a.url
      else LastSuccess(attempts[..|attempts| - 1], before)
  }

  /** Reference definition of the flag: the verdict of the last non-empty
      attempt (1 or 0), or what was stored before when there is none. */
  function LastVerdict(attempts: seq<Attempt>, before: Option<int>): Option<int> {
    if |attempts| == 0 then before
    else
      var a := attempts[|attempts| - 1];
      if !IsNullOrEmpty(a.url) then Some(if a.loadOk then 1 else 0)
      else LastVerdict(attempts[..|attempts| - 1], before)
  }

  lemma {:induction false} RunSnoc(s: Session, self: Events.NodeId, attempts: seq<Attempt>, a: Attempt)
    ensures Run(s, self, attempts + [a]) == Download(Run(s, self, attempts), self, a.url, a.loadOk)
    decreases |attempts|
  {
    if |attempts| == 0 {
      assert attempts + [a] == [a];
    } else {
      assert (attempts + [a])[1..] == attempts[1..] + [a];
      RunSnoc(Download(s, self, attempts[0].url, attempts[0].loadOk), self, attempts[1..], a);
    }
  }

  /** The store after any history of downloads holds the URL of the last
      successful attempt and the verdict of the last attempt. */
  lemma {:induction false} RunPersistsLastSuccess(s: Session, self: Events.NodeId, attempts: seq<Attempt>)
    ensures Run(s, self, attempts).prefs
            == Prefs(LastSuccess(attempts, s.prefs.startUrl), LastVerdict(attempts, s.prefs.downloadOnStart))
    decreases |attempts|
  {
    if |attempts| > 0 {
      var front := attempts[..|attempts| - 1];
      var a := attempts[|attempts| - 1];
      assert attempts == front + [a];
      RunSnoc(s, self, front, a);
      RunPersistsLastSuccess(s, self, front);
    }
  }

  /** The flag is 1 after a history only when the stored URL is one that
      loaded successfully during it: the store remembers the last known-good URL. */
  lemma {:induction false} RunFlagMeansLoaded(s: Session, self: Events.NodeId, attempts: seq<Attempt>)
    requires exists i :: 0 <= i < |attempts| && !IsNullOrEmpty(attempts[i].url)
    ensures var p := Run(s, self, attempts).prefs;
            p.downloadOnStart == Some(1) ==>
              exists i :: 0 <= i < |attempts| && attempts[i].loadOk && !IsNullOrEmpty(attempts[i].url)
                          && attempts[i].url == p.startUrl
  {
    RunPersistsLastSuccess(s, self, attempts);
    VerdictOneIsSuccess(attempts, s.prefs.startUrl, s.prefs.downloadOnStart);
  }

  /** After a history holding at least one non-empty attempt the store is
      trusted, whatever it held before. */
  lemma {:induction false} RunEstablishesTrusted(s: Session, self: Events.NodeId, attempts: seq<Attempt>)
    requires exists i :: 0 <= i < |attempts| && !IsNullOrEmpty(attempts[i].url)
    ensures Trusted(Run(s, self, attempts).prefs)
  {
    RunPersistsLastSuccess(s, self, attempts);
    VerdictOneIsSuccess(attempts, s.prefs.startUrl, s.prefs.downloadOnStart);
  }

  lemma {:induction false} VerdictOneIsSuccess(attempts: seq<Attempt>, url: Option<string>, flag: Option<int>)
    requires exists i :: 0 <= i < |attempts| && !IsNullOrEmpty(attempts[i].url)
    ensures LastVerdict(attempts, flag) == Some(1) ==>
              exists i :: 0 <= i < |attempts| && attempts[i].loadOk && !IsNullOrEmpty(attempts[i].url)
                          && attempts[i].url == LastSuccess(attempts, url)
    decreases |attempts|
  {
    var front := attempts[..|attempts| - 1];
    var a := attempts[|attempts| - 1];
    if IsNullOrEmpty(a.url) {
      var i :| 0 <= i < |attempts| && !IsNullOrEmpty(attempts[i].url);
      assert i < |attempts| - 1 && front[i] == attempts[i];
      VerdictOneIsSuccess(front, url, flag);
      if LastVerdict(attempts, flag) == Some(1) {
        var j :| 0 <= j < |front| && front[j].loadOk && !IsNullOrEmpty(front[j].url)
                 && front[j].url == LastSuccess(front, url);
        assert attempts[j] == front[j];
      }
    } else if a.loadOk {
      assert attempts[|attempts| - 1] == a;
    }
  }
}

=== FILE: events.dfy ===
/** The `OnSuccess` event of the download events object: a C# multicast
    delegate whose invocation list is a sequence of handlers. An empty list
    plays the part of the null delegate, so `OnSuccess?.Invoke(...)` with
    no subscribers delivers nothing. */
module Events {
  import opened Seqs

  /** Identity of a scene-graph node (a Unity transform). */
  type NodeId = nat

  /** Identity of a subscribed handler (a bound method on one component). */
  type HandlerId = nat

  datatype Channel = Channel(handlers: seq<HandlerId>)

  /** One call of one handler with the event's argument. */
  datatype Delivery = Delivery(handler: HandlerId, payload: NodeId)

  /** `OnSuccess += h`: the handler is appended to the invocation list. */
  function Subscribe(c: Channel, h: HandlerId): (r: Channel)
    ensures Count(r.handlers, h) == Count(c.handlers, h) + 1
    ensures forall x :: x != h ==> Count(r.handlers, x) == Count(c.handlers, x)
  {
    assert forall x :: Count(c.handlers + [h], x) == Count(c.handlers, x) + Count([h], x) by {
      forall x {
        CountAppend(c.handlers, [h], x);
      }
    }
    assert forall x :: Count([h], x) == if x == h then 1 else 0 by {
      assert [h][1..] == [];
    }
    Channel(c.handlers + [h])
  }

  /** Index of the last occurrence of `h` in `s`, or -1 when there is none. */
  function LastIndexOf(s: seq<HandlerId>, h: HandlerId): (k: int)
    ensures -1 <= k < |s|
    ensures k == -1 <==> h !in s
    ensures 0 <= k ==> s[k] == h && h !in s[k + 1..]
  {
    if |s| == 0 then -1
    else if s[|s| - 1] == h then |s| - 1
    else
      var front := s[..|s| - 1];
      var k := LastIndexOf(front, h);
      assert s == front + [s[|s| - 1]];
      assert 0 <= k ==> s[k + 1..] == front[k + 1..] + [s[|s| - 1]];
      k
  }

  /** `Delegate.Remove` for a single-method delegate: drops the LAST
      occurrence of `h`; a list without `h` is returned unchanged. */
  function RemoveLast(s: seq<HandlerId>, h: HandlerId): seq<HandlerId> {
    var k := LastIndexOf(s, h);
    if k < 0 then s else s[..k] + s[k + 1..]
  }

  /** `OnSuccess -= h`: a handler that is not subscribed leaves the list
      alone; otherwise the LAST occurrence of `h` goes, every other entry
      keeps its place and order, and nothing new appears. */
  function Unsubscribe(c: Channel, h: HandlerId): (r: Channel)
    ensures h !in c.handlers ==> r == c
    ensures h in c.handlers ==> |r.handlers| == |c.handlers| - 1
    ensures h in c.handlers ==>
              exists k :: 0 <= k < |c.handlers| && c.handlers[k] == h && h !in c.handlers[k + 1..]
                          && r.handlers == c.handlers[..k] + c.handlers[k + 1..]
    ensures forall x :: x in r.handlers ==> x in c.handlers
  {
    Channel(RemoveLast(c.handlers, h))
  }

  /** `OnSuccess?.Invoke(payload)`: every handler on the list, in list order. */
  function Invoke(c: Channel, payload: NodeId): seq<Delivery> {
    Deliver(c.handlers, payload)
  }

  function Deliver(hs: seq<HandlerId>, payload: NodeId): seq<Delivery> {
    if |hs| == 0 then [] else [Delivery(hs[0], payload)] + Deliver(hs[1..], payload)
  }

  /** Removing an occurrence lowers that handler's count by one and leaves
      every other handler's count alone. */
  lemma {:induction false} UnsubscribeCounts(c: Channel, h: HandlerId, x: HandlerId)
    ensures Count(Unsubscribe(c, h).handlers, x)
            == if x == h && h in c.handlers then Count(c.handlers, x) - 1 else Count(c.handlers, x)
  {
    var s := c.handlers;
    var k := LastIndexOf(s, h);
    if 0 <= k {
      assert s == s[..k] + [s[k]] + s[k + 1..];
      CountAppend(s[..k] + [s[k]], s[k + 1..], x);
      CountAppend(s[..k], [s[k]], x);
      CountAppend(s[..k], s[k + 1..], x);
      assert [s[k]][1..] == [];
    }
  }

  /** Subscribing and then unsubscribing the same handler restores the
      invocation list exactly. */
  lemma SubscribeUnsubscribe(c: Channel, h: HandlerId)
    ensures Unsubscribe(Subscribe(c, h), h) == c
  {
    assert (c.handlers + [h])[..|c.handlers|] == c.handlers;
  }

  /** Each subscription of `h` yields exactly one call of `h` with the
      event's argument. */
  lemma {:induction false} InvokeCounts(c: Channel, payload: NodeId, h: HandlerId)
    ensures Count(Invoke(c, payload), Delivery(h, payload)) == Count(c.handlers, h)
    ensures forall d :: d in Invoke(c, payload) ==> d.payload == payload
  {
    DeliverCounts(c.handlers, payload, h);
  }

  lemma {:induction false} DeliverCounts(hs: seq<HandlerId>, payload: NodeId, h: HandlerId)
    ensures Count(Deliver(hs, payload), Delivery(h, payload)) == Count(hs, h)
    ensures forall d :: d in Deliver(hs, payload) ==> d.payload == payload
  {
    if |hs| > 0 {
      DeliverCounts(hs[1..], payload, h);
      var rest := Deliver(hs[1..], payload);
      assert ([Delivery(hs[0], payload)] + rest)[1..] == rest;
    }
  }
}

=== FILE: pipeline.dfy ===
/** The two components wired together: the download component's bootstrap
    and download raise `OnSuccess` with its own transform, and the rig
    component's handler, subscribed at its start, transplants the model that
    hangs below that transform. */
module Pipeline {
  import opened Wrappers
  import opened Seqs
  import Events
  import DownloadAvatar
  import PrepareAvatar

  /** Start-up with the flag set and a stored URL `x`: the loader is asked for
      `x` exactly once; when it succeeds the success event is raised exactly
      once with the download component's transform, the subscribed rig
      handler is called with it exactly once, and that run completes with a
      humanoid avatar built over the rig's preserved children followed by
      the model's content. When the loader fails, no event is raised and the
      next start does not load again. */
  lemma StartupTransplantsOnce(c: DownloadAvatar.Component, s: DownloadAvatar.Session, x: string,
                               ch: Events.Channel, h: Events.HandlerId,
                               w: PrepareAvatar.World, clearFrom: nat, applyRootMotion: bool)
    requires x != "" && s.prefs == DownloadAvatar.Prefs(Some(x), Some(1))
    requires h !in ch.handlers
    requires PrepareAvatar.WellFormed(w) && w.model.id == c.self
    requires |w.model.children| > 0 && w.model.children[0].alive
    ensures var ok := DownloadAvatar.Bootstrap(c, s, true).1;
            && DownloadAvatar.Loads(ok.effects) == DownloadAvatar.Loads(s.effects) + [x]
            && DownloadAvatar.Raises(ok.effects) == DownloadAvatar.Raises(s.effects) + [w.model.id]
    ensures Count(Events.Invoke(PrepareAvatar.Start(ch, h), c.self), Events.Delivery(h, w.model.id)) == 1
    ensures var r := PrepareAvatar.PrepareModel(w, clearFrom, applyRootMotion, true);
            && r.exit == PrepareAvatar.Completed
            && r.world.rig.avatar
               == PrepareAvatar.Humanoid(PrepareAvatar.Preserved(w, clearFrom) + w.model.children[0].children)
    ensures var failed := DownloadAvatar.Bootstrap(c, s, false).1;
            && DownloadAvatar.Raises(failed.effects) == DownloadAvatar.Raises(s.effects)
            && DownloadAvatar.Start(c, failed.prefs).request == None
  {
    DownloadsOnce(c, s, x);
    DeliversOnce(ch, h, c.self);
    TransplantCompletes(w, clearFrom, applyRootMotion);
  }

  /** The download half: one load of `x`; on success one event carrying the
      component's transform; on failure no event and no load next start. */
  lemma DownloadsOnce(c: DownloadAvatar.Component, s: DownloadAvatar.Session, x: string)
    requires x != "" && s.prefs == DownloadAvatar.Prefs(Some(x), Some(1))
    ensures var ok := DownloadAvatar.Bootstrap(c, s, true).1;
            && DownloadAvatar.Loads(ok.effects) == DownloadAvatar.Loads(s.effects) + [x]
            && DownloadAvatar.Raises(ok.effects) == DownloadAvatar.Raises(s.effects) + [c.self]
    ensures var failed := DownloadAvatar.Bootstrap(c, s, false).1;
            && DownloadAvatar.Raises(failed.effects) == DownloadAvatar.Raises(s.effects)
            && DownloadAvatar.Start(c, failed.prefs).request == None
  {
    BootstrapDownloadsStored(c, s, x, true);
    BootstrapDownloadsStored(c, s, x, false);
    DownloadAvatar.RestartAfterDownload(c, s, c.self, x, false);
  }

  /** The event half: a handler subscribed at start-up by a component that
      was not yet subscribed receives one event exactly once. */
  lemma DeliversOnce(ch: Events.Channel, h: Events.HandlerId, payload: Events.NodeId)
    requires h !in ch.handlers
    ensures Count(Events.Invoke(PrepareAvatar.Start(ch, h), payload), Events.Delivery(h, payload)) == 1
  {
    PrepareAvatar.LifecycleSubscription(ch, h, payload);
    Events.InvokeCounts(ch, payload, h);
    CountZero(ch.handlers, h);
  }

  /** The rig half: with a live root and a building builder the handler
      completes, and the avatar is built over the preserved rig children
      followed by the model's content. */
  lemma TransplantCompletes(w: PrepareAvatar.World, clearFrom: nat, applyRootMotion: bool)
    requires PrepareAvatar.WellFormed(w)
    requires |w.model.children| > 0 && w.model.children[0].alive
    ensures var r := PrepareAvatar.PrepareModel(w, clearFrom, applyRootMotion, true);
            && r.exit == PrepareAvatar.Completed
            && r.world.rig.avatar
               == PrepareAvatar.Humanoid(PrepareAvatar.Preserved(w, clearFrom) + w.model.children[0].children)
  {
    PrepareAvatar.PrepareModelTransplants(w, clearFrom, applyRootMotion, true);
  }

  /** With the flag stored as 1 and a stored URL, the bootstrap is exactly
      one download of that URL. */
  lemma BootstrapDownloadsStored(c: DownloadAvatar.Component, s: DownloadAvatar.Session, x: string, loadOk: bool)
    requires x != "" && s.prefs == DownloadAvatar.Prefs(Some(x), Some(1))
    ensures DownloadAvatar.Bootstrap(c, s, loadOk).1 == DownloadAvatar.Download(s, c.self, Some(x), loadOk)
  {
    assert DownloadAvatar.Start(c, s.prefs).request == Some(x);
  }
}

=== FILE: prepare_avatar.dfy ===
/** The rig-side component: on each success event it resets the pose (with
    root motion), deactivates the downloaded model, destroys the rig's
    children from a configured index, waits one frame, moves every child of
    the downloaded model's first child onto the rig in order, builds the
    humanoid avatar and finally destroys the emptied scaffold.

    The scene graph is reduced to child-id sequences: the rig's children and,
    for the downloaded model, its children each with their own child list.
    Unity's `Destroy` is deferred: it only marks a node (the `doomed` set),
    and the marked rig children disappear at the `Task.Yield` that follows
    the clearing loop. Engine calls are appended, in order, to a step log. */
module PrepareAvatar {
  import opened Seqs
  import Events

  type NodeId = Events.NodeId

  /** Local position and rotation, abstracted to "at the origin with identity
      rotation" or some other pose. */
  datatype Pose = Identity | Posed(tag: nat)

  /** The animator's avatar: none yet, or the humanoid mapping built over the
      rig's children at build time. */
  datatype Avatar = NoAvatar | Humanoid(bones: seq<NodeId>)

  /** The transform that carries this component. */
  datatype Rig = Rig(pose: Pose, children: seq<NodeId>, avatar: Avatar)

  /** A child of the downloaded model: alive unless Unity reports it as a
      destroyed object; `children` is its own child list. */
  datatype Node = Node(id: NodeId, alive: bool, children: seq<NodeId>)

  /** The downloaded model's transform: its active flag and its children;
      the first child, `GetChild(0)`, is the root the handler transplants. */
  datatype Model = Model(id: NodeId, active: bool, children: seq<Node>)

  /** Engine calls made by `PrepareModel`, in order. */
  datatype Step =
    | PoseReset              // local position zero, local rotation identity
    | Deactivate             // `SetActive(false)` on the downloaded model
    | Destroy(node: NodeId)  // deferred `Destroy`
    | Yield                  // `await Task.Yield()`
    | Reparent(node: NodeId) // `SetParent(rig)` on a child of the root
    | BuildAvatar            // `HumanoidAvatarBuilder.Build`
  {
    /** Steps that change the scene graph's structure. */
    predicate Structural() {
      Destroy? || Reparent?
    }
  }

  datatype World = World(rig: Rig, model: Model, doomed: set<NodeId>, log: seq<Step>)

  /** How `PrepareModel` ends: normally, or through one of the exceptions
      its catch block swallows, or through the "no root" warning. */
  datatype Exit =
    | Completed
    | ClearIndexFault   // `GetChild` with a negative clear index throws
    | NoRootFault       // `GetChild(0)` on a model without children throws
    | RootMissing       // the first child is a destroyed object
    | BuildFault        // the avatar builder throws

  datatype Outcome = Outcome(world: World, exit: Exit)

  function Destroys(ids: seq<NodeId>): seq<Step> {
    if |ids| == 0 then [] else [Destroy(ids[0])] + Destroys(ids[1..])
  }

  function Reparents(ids: seq<NodeId>): seq<Step> {
    if |ids| == 0 then [] else [Reparent(ids[0])] + Reparents(ids[1..])
  }

  /** The nodes a step log reparents, in order. */
  function Reparented(steps: seq<Step>): seq<NodeId> {
    if |steps| == 0 then []
    else (if steps[0].Reparent? then [steps[0].node] else []) + Reparented(steps[1..])
  }

  /** The nodes a step log destroys, in order. */
  function Destroyed(steps: seq<Step>): seq<NodeId> {
    if |steps| == 0 then []
    else (if steps[0].Destroy? then [steps[0].node] else []) + Destroyed(steps[1..])
  }

  lemma StepsAppend(a: seq<Step>, b: seq<Step>)
    ensures Reparented(a + b) == Reparented(a) + Reparented(b)
    ensures Destroyed(a + b) == Destroyed(a) + Destroyed(b)
  {
    ReparentedAppend(a, b);
    DestroyedAppend(a, b);
  }

  lemma {:induction false} ReparentedAppend(a: seq<Step>, b: seq<Step>)
    ensures Reparented(a + b) == Reparented(a) + Reparented(b)
  {
    if |a| == 0 {
      assert a + b == b;
    } else {
      assert (a + b)[1..] == a[1..] + b;
      ReparentedAppend(a[1..], b);
      Assoc(if a[0].Reparent? then [a[0].node] else [], Reparented(a[1..]), Reparented(b));
    }
  }

  lemma {:induction false} DestroyedAppend(a: seq<Step>, b: seq<Step>)
    ensures Destroyed(a + b) == Destroyed(a) + Destroyed(b)
  {
    if |a| == 0 {
      assert a + b == b;
    } else {
      assert (a + b)[1..] == a[1..] + b;
      DestroyedAppend(a[1..], b);
      Assoc(if a[0].Destroy? then [a[0].node] else [], Destroyed(a[1..]), Destroyed(b));
    }
  }

  lemma {:induction false} StepsOfMoves(ids: seq<NodeId>)
    ensures Reparented(Reparents(ids)) == ids && Destroyed(Reparents(ids)) == []
    ensures Reparented(Destroys(ids)) == [] && Destroyed(Destroys(ids)) == ids
    ensures forall s :: s in Reparents(ids) ==> s.Reparent?
    ensures forall s :: s in Destroys(ids) ==> s.Destroy?
  {
    if |ids| > 0 {
      StepsOfMoves(ids[1..]);
      assert Reparents(ids)[1..] == Reparents(ids[1..]);
      assert Destroys(ids)[1..] == Destroys(ids[1..]);
    }
  }

  /** The rig children kept by the clearing loop: those below `clearFrom`. */
  function Preserved(w: World, clearFrom: nat): seq<NodeId> {
    Upto(w.rig.children, clearFrom)
  }

  // ---------------------------------------------------------------- steps

  function ResetPose(w: World, applyRootMotion: bool): World {
    if applyRootMotion then w.(rig := w.rig.(pose := Identity), log := w.log + [PoseReset]) else w
  }

  function DeactivateModel(w: World): World {
    w.(model := w.model.(active := false), log := w.log + [Deactivate])
  }

  /** The clearing loop from index `i` on. Destruction is deferred, so the
      child count the loop compares against never shrinks: every child from
      `i` to the end is marked, in order, and none is skipped. */
  function ClearFrom(w: World, i: nat): (r: World)
    ensures r == w.(doomed := w.doomed + Elems(From(w.rig.children, i)),
                    log := w.log + Destroys(From(w.rig.children, i)))
    decreases |w.rig.children| - i
  {
    if i >= |w.rig.children| then w
    else
      var c := w.rig.children[i];
      var rest := From(w.rig.children, i + 1);
      var r := ClearFrom(w.(doomed := w.doomed + {c}, log := w.log + [Destroy(c)]), i + 1);
      assert From(w.rig.children, i) == [c] + rest;
      assert Destroys([c] + rest) == [Destroy(c)] + Destroys(rest) by { assert ([c] + rest)[1..] == rest; }
      assert Elems([c] + rest) == {c} + Elems(rest);
      Assoc(w.log, [Destroy(c)], Destroys(rest));
      r
  }

  /** The first `Task.Yield`: pending destructions take effect. */
  function ApplyDestruction(w: World): World {
    w.(rig := w.rig.(children := Without(w.rig.children, w.doomed)), log := w.log + [Yield])
  }

  /** One iteration of the reparenting loop: the root's child at index 0
      moves to the end of the rig's children. */
  function MoveFirstChild(w: World): World
    requires |w.model.children| > 0 && |w.model.children[0].children| > 0
  {
    var root := w.model.children[0];
    var child := root.children[0];
    w.(rig := w.rig.(children := w.rig.children + [child]),
       model := w.model.(children := w.model.children[0 := root.(children := root.children[1..])]),
       log := w.log + [Reparent(child)])
  }

  /** The reparenting loop with `count` iterations left: each one takes the
      root's child at index 0 and appends it to the rig's children. */
  function MoveChildren(w: World, count: nat): (r: World)
    requires |w.model.children| > 0 && count <= |w.model.children[0].children|
    ensures r == w.(rig := w.rig.(children := w.rig.children + w.model.children[0].children[..count]),
                    model := w.model.(children := w.model.children[0 := w.model.children[0].(children := w.model.children[0].children[count..])]),
                    log := w.log + Reparents(w.model.children[0].children[..count]))
    decreases count
  {
    var root := w.model.children[0];
    if count == 0 then
      assert root.children[0..] == root.children;
      assert w.model.children[0 := root] == w.model.children;
      w
    else
      var child := root.children[0];
      var rest := root.children[1..];
      var r := MoveChildren(MoveFirstChild(w), count - 1);
      assert root.children[..count] == [child] + rest[..count - 1];
      assert rest[count - 1..] == root.children[count..];
      assert w.model.children[0 := root.(children := rest)][0 := root.(children := root.children[count..])]
          == w.model.children[0 := root.(children := root.children[count..])];
      r
  }

  lemma {:induction false} ReparentsSnoc(ids: seq<NodeId>, x: NodeId)
    ensures Reparents(ids + [x]) == Reparents(ids) + [Reparent(x)]
  {
    if |ids| == 0 {
      assert ids + [x] == [x];
      assert [x][1..] == [];
    } else {
      assert (ids + [x])[1..] == ids[1..] + [x];
      ReparentsSnoc(ids[1..], x);
    }
  }

  /** The reparenting loop as an imperative loop: the child count is read
      once, and every iteration moves the root's child at index 0, which
      never runs out because each iteration removes exactly one child. The
      rig ends with the root's children appended in their original order and
      the root ends empty. */
  method ReparentAll(w: World) returns (r: World)
    requires |w.model.children| > 0
    ensures r.rig.children == w.rig.children + w.model.children[0].children
    ensures |r.model.children| == |w.model.children| && r.model.children[0].children == []
    ensures r == MoveChildren(w, |w.model.children[0].children|)
  {
    var orig := w.model.children[0].children;
    var childCount := |orig|;
    r := w;
    var i := 0;
    assert orig[..0] == [] && orig[0..] == orig;
    assert w.model.children[0 := w.model.children[0].(children := orig)] == w.model.children;
    while i < childCount
      invariant 0 <= i <= childCount
      invariant r == w.(rig := w.rig.(children := w.rig.children + orig[..i]),
                        model := w.model.(children := w.model.children[0 := w.model.children[0].(children := orig[i..])]),
                        log := w.log + Reparents(orig[..i]))
    {
      assert orig[..i + 1] == orig[..i] + [orig[i]];
      assert orig[i..][1..] == orig[i + 1..];
      ReparentsSnoc(orig[..i], orig[i]);
      r := MoveFirstChild(r);
      i := i + 1;
    }
    assert orig[..childCount] == orig;
  }

  /** `_animator.avatar = HumanoidAvatarBuilder.Build(gameObject)`; when the
      builder throws, the call is logged and the avatar is left alone. */
  function BuildAvatarStep(w: World, buildOk: bool): World {
    var w' := w.(log := w.log + [BuildAvatar]);
    if buildOk then w'.(rig := w'.rig.(avatar := Humanoid(w.rig.children))) else w'
  }

  /** The second `Task.Yield`, then the deferred `Destroy` of the root. */
  function DestroyRoot(w: World, root: NodeId): World {
    w.(doomed := w.doomed + {root}, log := w.log + [Yield, Destroy(root)])
  }

  // ---------------------------------------------------------------- lifecycle

  /** `Start()`: the handler `h` of this component subscribes to `OnSuccess`. */
  function Start(c: Events.Channel, h: Events.HandlerId): Events.Channel {
    Events.Subscribe(c, h)
  }

  /** `OnDestroy()`: the handler `h` unsubscribes. */
  function OnDestroy(c: Events.Channel, h: Events.HandlerId): Events.Channel {
    Events.Unsubscribe(c, h)
  }

  /** While the component lives its handler is called once more per event
      than before; after teardown the invocation list is the one it found,
      so a handler that was not subscribed before is not subscribed after. */
  lemma {:induction false} LifecycleSubscription(c: Events.Channel, h: Events.HandlerId, payload: NodeId)
    ensures Count(Events.Invoke(Start(c, h), payload), Events.Delivery(h, payload))
            == Count(Events.Invoke(c, payload), Events.Delivery(h, payload)) + 1
    ensures OnDestroy(Start(c, h), h) == c
    ensures h !in c.handlers ==> h !in OnDestroy(Start(c, h), h).handlers
  {
    Events.InvokeCounts(Start(c, h), payload, h);
    Events.InvokeCounts(c, payload, h);
    Events.SubscribeUnsubscribe(c, h);
  }

  // ---------------------------------------------------------------- the handler

  /** `PrepareModel(downloadedModel)` where `w.model` is the downloaded model,
      `applyRootMotion` is the animator's setting and `buildOk` whether the
      avatar builder returns normally. */
  function PrepareModel(w: World, clearFrom: int, applyRootMotion: bool, buildOk: bool): (r: Outcome)
    ensures r.world.model.id == w.model.id && !r.world.model.active
    ensures applyRootMotion ==> r.world.rig.pose == Identity
    ensures !applyRootMotion ==> r.world.rig.pose == w.rig.pose
    ensures r.exit == ClearIndexFault <==> clearFrom < 0
    ensures r.exit == NoRootFault <==> 0 <= clearFrom && |w.model.children| == 0
    ensures r.exit == RootMissing <==> 0 <= clearFrom && |w.model.children| > 0 && !w.model.children[0].alive
    ensures r.exit == Completed <==> 0 <= clearFrom && |w.model.children| > 0 && w.model.children[0].alive && buildOk
    ensures r.exit == Completed ==> r.world.rig.avatar == Humanoid(r.world.rig.children)
    ensures r.exit != Completed ==> r.world.rig.avatar == w.rig.avatar
    ensures |r.world.log| >= |w.log| && r.world.log[..|w.log|] == w.log
  {
    var w1 := DeactivateModel(ResetPose(w, applyRootMotion));
    if clearFrom < 0 then Outcome(w1, ClearIndexFault)
    else
      var w2 := ApplyDestruction(ClearFrom(w1, clearFrom));
      PreludeLog(w, clearFrom, applyRootMotion);
      if |w2.model.children| == 0 then Outcome(w2, NoRootFault)
      else if !w2.model.children[0].alive then Outcome(w2, RootMissing)
      else
        var root := w2.model.children[0];
        var w3 := MoveChildren(w2, |root.children|);
        var w4 := BuildAvatarStep(w3, buildOk);
        if !buildOk then Outcome(w4, BuildFault)
        else Outcome(DestroyRoot(w4, root.id), Completed)
  }

  // ---------------------------------------------------------------- properties

  /** Node ids are unique across the rig and the transplanted hierarchy, the
      downloaded model lies outside the rig's children, and no live node is
      already marked for destruction. */
  predicate WellFormed(w: World) {
    && Distinct(w.rig.children)
    && (forall x :: x in w.rig.children ==> x !in w.doomed)
    && w.model.id !in w.rig.children && w.model.id !in w.doomed
    && (|w.model.children| > 0 ==>
          var root := w.model.children[0];
          && root.id !in w.rig.children && root.id !in root.children && root.id !in w.doomed
          && (forall x :: x in root.children ==> x !in w.rig.children && x !in w.doomed))
  }

  /** The scene graph after the handler: the rig keeps exactly its children
      below the clear index, in order, followed (once a root was found) by
      the root's children in their original order; the root ends up empty;
      the nodes marked for destruction are the cleared rig children and, on
      normal completion, the root itself. */
  lemma PrepareModelTransplants(w: World, clearFrom: int, applyRootMotion: bool, buildOk: bool)
    requires WellFormed(w)
    ensures var r := PrepareModel(w, clearFrom, applyRootMotion, buildOk);
            && (r.exit == ClearIndexFault ==> r.world.rig.children == w.rig.children && r.world.doomed == w.doomed)
            && (r.exit == NoRootFault || r.exit == RootMissing ==>
                  r.world.rig.children == Preserved(w, clearFrom) && r.world.model.children == w.model.children
                  && r.world.doomed == w.doomed + Elems(From(w.rig.children, clearFrom)))
            && (r.exit == Completed || r.exit == BuildFault ==>
                  var root := w.model.children[0];
                  && r.world.rig.children == Preserved(w, clearFrom) + root.children
                  && r.world.model.children == w.model.children[0 := root.(children := [])]
                  && r.world.doomed == w.doomed + Elems(From(w.rig.children, clearFrom))
                                       + (if r.exit == Completed then {root.id} else {}))
  {
    if clearFrom >= 0 {
      var w1 := DeactivateModel(ResetPose(w, applyRootMotion));
      var w2 := ApplyDestruction(ClearFrom(w1, clearFrom));
      WithoutSuffix(w.rig.children, w.doomed, clearFrom);
      assert w2.rig.children == Preserved(w, clearFrom);
      if |w.model.children| > 0 {
        var root := w.model.children[0];
        assert root.children[..|root.children|] == root.children;
        assert root.children[|root.children|..] == [];
      }
    }
  }

  /** A clear index at or past the rig's child count destroys none of the
      rig's children: only the root is marked, and only on completion; a run
      that finds no root leaves the rig's children as they were. */
  lemma ClearPastEndKeepsRig(w: World, clearFrom: int, applyRootMotion: bool, buildOk: bool)
    requires WellFormed(w)
    requires |w.rig.children| <= clearFrom
    ensures var r := PrepareModel(w, clearFrom, applyRootMotion, buildOk);
            && r.world.doomed == w.doomed + (if r.exit == Completed then {w.model.children[0].id} else {})
            && (r.exit == NoRootFault || r.exit == RootMissing ==> r.world.rig.children == w.rig.children)
  {
    PrepareModelTransplants(w, clearFrom, applyRootMotion, buildOk);
    assert From(w.rig.children, clearFrom) == [];
    assert Elems<NodeId>([]) == {};
    assert Preserved(w, clearFrom) == w.rig.children;
  }

  /** Nodes moved onto the rig are never marked for destruction, and on
      normal completion the root is marked and holds no children. */
  lemma TransplantedNodesSurvive(w: World, clearFrom: int, applyRootMotion: bool, buildOk: bool)
    requires WellFormed(w)
    ensures var r := PrepareModel(w, clearFrom, applyRootMotion, buildOk);
            r.exit == Completed ==>
              var root := w.model.children[0];
              && root.id in r.world.doomed && r.world.model.children[0].children == []
              && (forall x :: x in root.children ==> x in r.world.rig.children && x !in r.world.doomed)
  {
    var r := PrepareModel(w, clearFrom, applyRootMotion, buildOk);
    PrepareModelTransplants(w, clearFrom, applyRootMotion, buildOk);
    if r.exit == Completed {
      var root := w.model.children[0];
      forall x | x in root.children
        ensures x !in Elems(From(w.rig.children, clearFrom))
      {
        assert x !in w.rig.children;
      }
    }
  }

  /** Steps before the clearing loop: the optional pose reset, then the
      model's deactivation. */
  function Opening(applyRootMotion: bool): seq<Step> {
    (if applyRootMotion then [PoseReset] else []) + [Deactivate]
  }

  /** The clearing loop's destructions followed by the first yield. */
  function Clearing(cleared: seq<NodeId>): seq<Step> {
    Destroys(cleared) + [Yield]
  }

  /** The clear index the loop starts from on the paths that reach it. */
  function ClearStart(clearFrom: int): nat {
    if clearFrom < 0 then 0 else clearFrom
  }

  /** Reference listing of the engine calls one handler run makes, given how
      it ends. */
  function HandlerSteps(w: World, clearFrom: int, applyRootMotion: bool, exit: Exit): seq<Step>
    requires exit == Completed || exit == BuildFault ==> |w.model.children| > 0
  {
    var a := Opening(applyRootMotion);
    var b := Clearing(From(w.rig.children, ClearStart(clearFrom)));
    match exit
    case ClearIndexFault => a
    case NoRootFault => a + b
    case RootMissing => a + b
    case BuildFault => a + b + Reparents(w.model.children[0].children) + [BuildAvatar]
    case Completed =>
      a + b + Reparents(w.model.children[0].children) + [BuildAvatar, Yield, Destroy(w.model.children[0].id)]
  }

  /** The handler appends exactly the reference listing of engine calls to
      the log. */
  lemma PrepareModelLog(w: World, clearFrom: int, applyRootMotion: bool, buildOk: bool)
    ensures var r := PrepareModel(w, clearFrom, applyRootMotion, buildOk);
            && |r.world.log| >= |w.log|
            && r.world.log[|w.log|..] == HandlerSteps(w, clearFrom, applyRootMotion, r.exit)
  {
    var r := PrepareModel(w, clearFrom, applyRootMotion, buildOk);
    var a := Opening(applyRootMotion);
    var w1 := DeactivateModel(ResetPose(w, applyRootMotion));
    assert w1.log == w.log + a;
    if clearFrom < 0 {
      Regroup(w.log, a, r.world.log);
    } else {
      var ab := a + Clearing(From(w.rig.children, clearFrom));
      var w2 := ApplyDestruction(ClearFrom(w1, clearFrom));
      PreludeLog(w, clearFrom, applyRootMotion);
      if |w.model.children| == 0 || !w.model.children[0].alive {
        Regroup(w.log, ab, r.world.log);
      } else {
        var root := w.model.children[0];
        var moves := Reparents(root.children);
        assert root.children[..|root.children|] == root.children;
        var w3 := MoveChildren(w2, |root.children|);
        assert w3.log == w.log + ab + moves;
        var tail := if buildOk then [BuildAvatar, Yield, Destroy(root.id)] else [BuildAvatar];
        assert r.world.log == w.log + ab + moves + tail;
        Assoc(w.log, ab, moves);
        Assoc(w.log, ab + moves, tail);
        Regroup(w.log, ab + moves + tail, r.world.log);
      }
    }
  }

  /** Up to the first yield the handler logs the opening and the clearing,
      and leaves the model's children alone. */
  lemma PreludeLog(w: World, clearFrom: nat, applyRootMotion: bool)
    ensures var w2 := ApplyDestruction(ClearFrom(DeactivateModel(ResetPose(w, applyRootMotion)), clearFrom));
            && w2.log == w.log + (Opening(applyRootMotion) + Clearing(From(w.rig.children, clearFrom)))
            && w2.model == w.model.(active := false)
  {
    var a := Opening(applyRootMotion);
    var d := Destroys(From(w.rig.children, clearFrom));
    var w1 := DeactivateModel(ResetPose(w, applyRootMotion));
    assert w1.log == w.log + a && w1.rig.children == w.rig.children;
    var w2 := ApplyDestruction(ClearFrom(w1, clearFrom));
    assert w2.log == w.log + a + d + [Yield];
    Assoc(w.log + a, d, [Yield]);
    Assoc(w.log, a, d + [Yield]);
  }

  lemma OpeningAndClearing(applyRootMotion: bool, cleared: seq<NodeId>)
    ensures Reparented(Opening(applyRootMotion)) == [] && Destroyed(Opening(applyRootMotion)) == []
    ensures Reparented(Clearing(cleared)) == [] && Destroyed(Clearing(cleared)) == cleared
    ensures BuildAvatar !in Opening(applyRootMotion) + Clearing(cleared)
    ensures forall i :: 0 <= i < |Opening(applyRootMotion)| ==> !Opening(applyRootMotion)[i].Structural()
  {
    OpeningSteps(applyRootMotion);
    ClearingSteps(cleared);
  }

  lemma OpeningSteps(applyRootMotion: bool)
    ensures Reparented(Opening(applyRootMotion)) == [] && Destroyed(Opening(applyRootMotion)) == []
    ensures BuildAvatar !in Opening(applyRootMotion)
    ensures forall i :: 0 <= i < |Opening(applyRootMotion)| ==> !Opening(applyRootMotion)[i].Structural()
  {
    assert [Deactivate][1..] == [];
    assert [PoseReset][1..] == [];
    StepsAppend(if applyRootMotion then [PoseReset] else [], [Deactivate]);
  }

  lemma ClearingSteps(cleared: seq<NodeId>)
    ensures Reparented(Clearing(cleared)) == [] && Destroyed(Clearing(cleared)) == cleared
    ensures BuildAvatar !in Clearing(cleared)
  {
    StepsOfMoves(cleared);
    assert Reparented([Yield]) == [] && Destroyed([Yield]) == [] by { assert [Yield][1..] == []; }
    StepsAppend(Destroys(cleared), [Yield]);
  }

  /** Every listing opens with the optional pose reset and the deactivation. */
  lemma ListingOpens(w: World, clearFrom: int, applyRootMotion: bool, exit: Exit)
    requires exit == Completed || exit == BuildFault ==> |w.model.children| > 0
    ensures var steps := HandlerSteps(w, clearFrom, applyRootMotion, exit);
            var d := if applyRootMotion then 1 else 0;
            && d < |steps| && steps[d] == Deactivate
            && (forall i :: 0 <= i < |steps| && steps[i].Structural() ==> d < i)
  {
    var a := Opening(applyRootMotion);
    var b := Clearing(From(w.rig.children, ClearStart(clearFrom)));
    var steps := HandlerSteps(w, clearFrom, applyRootMotion, exit);
    if exit == ClearIndexFault {
      assert steps == a + [];
      OpeningLeads(applyRootMotion, []);
    } else if exit == NoRootFault || exit == RootMissing {
      OpeningLeads(applyRootMotion, b);
    } else {
      var m := Reparents(w.model.children[0].children);
      var tail := if exit == Completed then [BuildAvatar, Yield, Destroy(w.model.children[0].id)] else [BuildAvatar];
      assert steps == a + b + m + tail;
      Assoc(a, b, m);
      Assoc(a, b + m, tail);
      OpeningLeads(applyRootMotion, b + m + tail);
    }
  }

  /** Whatever follows the opening, the deactivation comes before every
      structural step. */
  lemma OpeningLeads(applyRootMotion: bool, rest: seq<Step>)
    ensures var steps := Opening(applyRootMotion) + rest;
            var d := if applyRootMotion then 1 else 0;
            && d < |steps| && steps[d] == Deactivate
            && (forall i :: 0 <= i < |steps| && steps[i].Structural() ==> d < i)
  {
    var a := Opening(applyRootMotion);
    OpeningAndClearing(applyRootMotion, []);
    forall i | 0 <= i < |a|
      ensures (a + rest)[i] == a[i]
    {
    }
  }

  /** The downloaded model is deactivated before any structural change, on
      every path through the handler. */
  lemma DeactivatesFirst(w: World, clearFrom: int, applyRootMotion: bool, buildOk: bool)
    ensures var r := PrepareModel(w, clearFrom, applyRootMotion, buildOk);
            var steps := r.world.log[|w.log|..];
            var d := if applyRootMotion then 1 else 0;
            && d < |steps| && steps[d] == Deactivate
            && (forall i :: 0 <= i < |steps| && steps[i].Structural() ==> d < i)
  {
    var r := PrepareModel(w, clearFrom, applyRootMotion, buildOk);
    PrepareModelLog(w, clearFrom, applyRootMotion, buildOk);
    ListingOpens(w, clearFrom, applyRootMotion, r.exit);
  }

  /** A run that stops before finding a usable root moves nothing and builds
      nothing. */
  lemma AbortMovesNothing(w: World, clearFrom: int, applyRootMotion: bool, buildOk: bool)
    ensures var r := PrepareModel(w, clearFrom, applyRootMotion, buildOk);
            var steps := r.world.log[|w.log|..];
            r.exit in {ClearIndexFault, NoRootFault, RootMissing} ==>
              Reparented(steps) == [] && BuildAvatar !in steps
  {
    PrepareModelLog(w, clearFrom, applyRootMotion, buildOk);
    AbortNodes(applyRootMotion, From(w.rig.children, ClearStart(clearFrom)));
  }

  /** The listings of the aborted runs, independent of the scene. */
  lemma AbortNodes(applyRootMotion: bool, cleared: seq<NodeId>)
    ensures var a := Opening(applyRootMotion);
            && Reparented(a) == [] && BuildAvatar !in a
            && Reparented(a + Clearing(cleared)) == [] && BuildAvatar !in a + Clearing(cleared)
  {
    OpeningAndClearing(applyRootMotion, cleared);
    StepsAppend(Opening(applyRootMotion), Clearing(cleared));
  }

  /** Nodes moved and destroyed by a completed run's log, independent of
      the scene. */
  lemma CompletedNodes(applyRootMotion: bool, cleared: seq<NodeId>, moved: seq<NodeId>, root: NodeId)
    ensures var steps := Opening(applyRootMotion) + Clearing(cleared) + Reparents(moved)
                         + [BuildAvatar, Yield, Destroy(root)];
            Reparented(steps) == moved && Destroyed(steps) == cleared + [root]
  {
    var ab := Opening(applyRootMotion) + Clearing(cleared);
    var moves := Reparents(moved);
    var tail := [BuildAvatar, Yield, Destroy(root)];
    assert Reparented(ab) == [] && Destroyed(ab) == cleared by {
      OpeningAndClearing(applyRootMotion, cleared);
      StepsAppend(Opening(applyRootMotion), Clearing(cleared));
    }
    assert Reparented(ab + moves) == moved && Destroyed(ab + moves) == cleared by {
      StepsOfMoves(moved);
      StepsAppend(ab, moves);
    }
    TailSteps(root);
    StepsAppend(ab + moves, tail);
  }

  lemma LastStep(root: NodeId)
    ensures Reparented([Destroy(root)]) == [] && Destroyed([Destroy(root)]) == [root]
  {
    assert [Destroy(root)][1..] == [];
  }

  /** The three calls that close a completed run move nothing and destroy
      only the root. */
  lemma TailSteps(root: NodeId)
    ensures var tail := [BuildAvatar, Yield, Destroy(root)];
            Reparented(tail) == [] && Destroyed(tail) == [root]
  {
    var tail := [BuildAvatar, Yield, Destroy(root)];
    LastStep(root);
    assert tail[1..][1..] == [Destroy(root)];
  }

  /** Position of the avatar build in a completed run's log: once, after
      every move, before the final destruction. */
  lemma CompletedBuildPosition(applyRootMotion: bool, cleared: seq<NodeId>, moved: seq<NodeId>, root: NodeId)
    ensures var x := Opening(applyRootMotion) + Clearing(cleared) + Reparents(moved);
            var steps := x + [BuildAvatar, Yield, Destroy(root)];
            && steps[|x|] == BuildAvatar && steps[|steps| - 1] == Destroy(root) && |x| < |steps| - 1
            && (forall i :: 0 <= i < |steps| && steps[i] == BuildAvatar ==> i == |x|)
            && (forall i :: 0 <= i < |steps| && steps[i].Reparent? ==> i < |x|)
  {
    var ab := Opening(applyRootMotion) + Clearing(cleared);
    var moves := Reparents(moved);
    var x := ab + moves;
    OpeningAndClearing(applyRootMotion, cleared);
    StepsOfMoves(moved);
    forall i | 0 <= i < |x|
      ensures x[i] != BuildAvatar
    {
      if i >= |ab| {
        assert x[i] in moves;
      } else {
        assert x[i] in ab;
      }
    }
  }

  /** A completed run moves the root's children in their original order,
      destroys the cleared rig children and then the root, and builds the
      avatar exactly once, after every move and before the root's
      destruction. */
  lemma CompletedOrder(w: World, clearFrom: int, applyRootMotion: bool, buildOk: bool)
    ensures var r := PrepareModel(w, clearFrom, applyRootMotion, buildOk);
            var steps := r.world.log[|w.log|..];
            r.exit == Completed ==>
              var root := w.model.children[0];
              && Reparented(steps) == root.children
              && Destroyed(steps) == From(w.rig.children, clearFrom) + [root.id]
              && (exists b :: && 0 <= b < |steps| - 1 && steps[b] == BuildAvatar
                              && steps[|steps| - 1] == Destroy(root.id)
                              && (forall i :: 0 <= i < |steps| && steps[i] == BuildAvatar ==> i == b)
                              && (forall i :: 0 <= i < |steps| && steps[i].Reparent? ==> i < b))
  {
    var r := PrepareModel(w, clearFrom, applyRootMotion, buildOk);
    if r.exit == Completed {
      PrepareModelLog(w, clearFrom, applyRootMotion, buildOk);
      var root := w.model.children[0];
      var cleared := From(w.rig.children, clearFrom);
      CompletedNodes(applyRootMotion, cleared, root.children, root.id);
      CompletedBuildPosition(applyRootMotion, cleared, root.children, root.id);
      var x := Opening(applyRootMotion) + Clearing(cleared) + Reparents(root.children);
      assert r.world.log[|w.log|..][|x|] == BuildAvatar;
    }
  }
}

=== FILE: seqs.dfy ===
/** Sequence helpers shared by the scene-graph and event models: distinctness,
    order-preserving removal of a set of elements, and occurrence counting. */
module Seqs {

  /** No element occurs twice. */
  predicate Distinct<T(==)>(s: seq<T>) {
    forall i, j :: 0 <= i < j < |s| ==> s[i] != s[j]
  }

  lemma Assoc<T>(p: seq<T>, q: seq<T>, r: seq<T>)
    ensures p + q + r == p + (q + r)
  {
  }

  /** What follows a known prefix. */
  lemma Regroup<T>(p: seq<T>, q: seq<T>, s: seq<T>)
    requires s == p + q
    ensures |s| >= |p| && s[|p|..] == q
  {
  }

  /** The elements of `s` as a set. */
  function Elems<T>(s: seq<T>): set<T> {
    set x | x in s
  }

  /** The elements of `s` from index `i` on; empty once `i` is past the end. */
  function From<T>(s: seq<T>, i: nat): seq<T> {
    if i <= |s| then s[i..] else []
  }

  /** The elements of `s` before index `i`; all of `s` once `i` is past the end. */
  function Upto<T>(s: seq<T>, i: nat): seq<T> {
    if i <= |s| then s[..i] else s
  }

  /** The elements of `s` that are not in `gone`, in their original order. */
  function Without<T(==,!new)>(s: seq<T>, gone: set<T>): (r: seq<T>)
    ensures forall x :: x in r <==> x in s && x !in gone
    ensures |r| <= |s|
  {
    if |s| == 0 then []
    else (if s[0] in gone then [] else [s[0]]) + Without(s[1..], gone)
  }

  /** Number of occurrences of `x` in `s`. */
  function Count<T(==)>(s: seq<T>, x: T): nat {
    if |s| == 0 then 0
    else (if s[0] == x then 1 else 0) + Count(s[1..], x)
  }

  lemma {:induction false} CountAppend<T>(a: seq<T>, b: seq<T>, x: T)
    ensures Count(a + b, x) == Count(a, x) + Count(b, x)
  {
    if |a| == 0 {
      assert a + b == b;
    } else {
      assert (a + b)[1..] == a[1..] + b;
      CountAppend(a[1..], b, x);
    }
  }

  lemma {:induction false} CountZero<T>(s: seq<T>, x: T)
    ensures Count(s, x) == 0 <==> x !in s
  {
    if |s| > 0 {
      CountZero(s[1..], x);
      assert s == [s[0]] + s[1..];
    }
  }

  lemma {:induction false} WithoutAppend<T(!new)>(a: seq<T>, b: seq<T>, gone: set<T>)
    ensures Without(a + b, gone) == Without(a, gone) + Without(b, gone)
  {
    if |a| == 0 {
      assert a + b == b;
    } else {
      assert (a + b)[1..] == a[1..] + b;
      WithoutAppend(a[1..], b, gone);
    }
  }

  /** Removing elements none of which occur leaves the sequence as it was. */
  lemma {:induction false} WithoutKeeps<T(!new)>(s: seq<T>, gone: set<T>)
    requires forall x :: x in s ==> x !in gone
    ensures Without(s, gone) == s
  {
    if |s| > 0 {
      WithoutKeeps(s[1..], gone);
    }
  }

  /** Removing a set that covers the sequence empties it. */
  lemma {:induction false} WithoutDrops<T(!new)>(s: seq<T>, gone: set<T>)
    requires forall x :: x in s ==> x in gone
    ensures Without(s, gone) == []
  {
    if |s| > 0 {
      WithoutDrops(s[1..], gone);
    }
  }

  /** Removing the elements of a distinct sequence's suffix from index `k`
      (together with elements it does not hold) leaves exactly its prefix. */
  lemma WithoutSuffix<T(!new)>(s: seq<T>, pre: set<T>, k: nat)
    requires Distinct(s)
    requires forall x :: x in s ==> x !in pre
    ensures Without(s, pre + Elems(From(s, k))) == Upto(s, k)
  {
    var gone := pre + Elems(From(s, k));
    if k <= |s| {
      assert s == s[..k] + s[k..];
      WithoutAppend(s[..k], s[k..], gone);
      WithoutKeeps(s[..k], gone);
      WithoutDrops(s[k..], gone);
    } else {
      WithoutKeeps(s, gone);
    }
  }
}

=== FILE: wrappers.dfy ===
/** The optional-value datatype used for C# null references and for
    preference keys that may be absent from the store. */
module Wrappers {

  datatype Option<+T> = None | Some(value: T) {

    /** The held value, or `default` when there is none. */
    function GetOr(default: T): T {
      match this
      case Some(v) => v
      case None => default
    }
  }
}
